=== FILE: README.md ===
# imap-migrate: the mailbox copy engine, in Dafny

This project models the copy engine of `imap-migrate`. The tool copies every
selectable mailbox of one IMAP account into another account. It keeps each
message's flags and internal date. It skips messages whose `Message-ID` the
destination already holds, so a second run does not copy them again.

The model covers these parts of `main.go`:

- the folder-name resolver, `resolveMailbox` (module `Resolver`);
- the host part of a server address, `hostFromAddr` (module `Address`);
- the `\Noselect` filter of `listMailboxes` (module `Enumerator`);
- the batch pagination of `syncMailbox` in `uint32` arithmetic (module `Pagination`);
- the dedup check `messageExists`, the ensure step `ensureMailbox` and the
  per-batch copy `copyBatch` (module `Copier`);
- `syncMailbox` itself (module `Sync`).

The two IMAP sessions are abstract. An `Env` holds one pure reply function
for each session operation the engine uses: source select, source fetch,
destination select, create, search and append. Each function sees the calls
issued so far for the current mailbox (the *trace*) and the new call. So every
server behaviour within one run over a mailbox whose message count stays
fixed, failures included, is some `Env`. The engine
appends every call it issues to the trace. Contracts can therefore say which
calls happened: that an empty mailbox never touches the destination, or that
no later batch is fetched after a failure.

A fetch is a finite sequence of records plus one completion status. When no
append fails, the status is read once, after the last record has been consumed.
After a failed append the batch returns at once and the status is never read.
This replaces the goroutine and channel of the source.

Each operation comes in two forms:

- a functional reference definition with the lemmas about it (`CopyRecords`,
  `CopyBatchRun`, `Paginate`, `SyncRun`, `SelectableNames`, `RangesFrom`);
- an imperative method that mirrors the Go loop (`CopyBatch`, `PaginateLoop`,
  `SyncMailbox`, `ListMailboxes`), proved equal to its reference.

## Model

| member | source | states |
|---|---|---|
| Resolver.Resolve | main.go:29-34 | A name outside the table is returned unchanged. A name in the table maps to a table value. A result that differs from its input comes from a table key and is never "INBOX". |
| Resolver.ResolveTable | main.go:20-27 | The six keys map to INBOX, Sent, Drafts, Junk, Trash and Archive. "Custom/Project" passes through unchanged. |
| Resolver.TableValuesAreFixed | main.go:20-27 | The only table value that is also a key is "INBOX", and it maps to itself. |
| Resolver.ResolveIdempotent | main.go:20-34 | Resolving a resolved name changes nothing. |
| Resolver.ResolveMergesSent | main.go:20-34 | Resolution is not injective: "[Gmail]/Sent Mail" and a plain "Sent" go to the same destination mailbox. |
| Address.LastIndex | main.go:132 | The result is the position of the last `c` in the string. It is -1 exactly when `c` does not occur. |
| Address.HostFromAddr | main.go:131-136 | The host is a prefix of the address. It equals the address exactly when no ':' occurs at index 1 or later. Otherwise it stops just before the last ':', which is at a positive index. |
| Address.HostOfHostPort | main.go:131-136 | For a non-empty host and a port without ':', `host + ":" + port` gives back `host`. |
| Address.HostExamples | main.go:131-136 | "imap.gmail.com:993" gives "imap.gmail.com" and "[::1]:993" gives "[::1]". "localhost" and ":993" are unchanged. |
| Enumerator.FoldChar | main.go:148 | The folding of `strings.EqualFold`, which `EqualFold` applies character by character; `EqualFold` has no contract of its own, so its faithfulness rests on this table. Upper-case ASCII folds to lower case. Lower-case ASCII letters are fixed. LATIN SMALL LETTER LONG S folds to 's' and KELVIN SIGN to 'k'. Every other character is fixed. Conversely, the characters that fold to a lower-case ASCII letter are exactly that letter, its upper case, and, for 's' and 'k', long s and the Kelvin sign. |
| Enumerator.EqualFoldAscii | main.go:148 | On ASCII strings, `EqualFold` holds exactly when the two strings are equal after lower-casing their ASCII letters. |
| Enumerator.SelectableNamesExact | main.go:145-156 | There is a strictly increasing index map from the output to the input. Each output name is the name of a selectable entry. Every selectable entry appears in the output. So only `\Noselect` entries are removed, and nothing is reordered or added. |
| Enumerator.NoselectIgnoresAsciiCase | main.go:148 | Lower-casing the ASCII letters of an attribute never changes whether it reads `\Noselect`. |
| Enumerator.NoselectSpellings | main.go:147-152 | `\Noselect`, `\NOSELECT` and `\noselect` all mark an entry as not selectable. |
| Enumerator.NoselectLongS | main.go:147-152 | Spellings with LATIN SMALL LETTER LONG S in place of the `s` also count as `\Noselect`, as Unicode case folding demands. |
| Enumerator.OtherAttributes | main.go:147-152 | `\Noinferiors`, `\HasNoChildren` and `Noselect` without the backslash do not count as `\Noselect`. |
| Enumerator.ListMailboxes | main.go:138-161 | The nested loop returns the selectable names in server order. An error in the listing's completion status is a fatal outcome, checked after every entry was consumed. |
| Pagination.Step | main.go:188 | `uint32(batchSize)`: a batch size in `[0, 2^32)` is kept, and a negative one of magnitude at most 2^32 becomes `batchSize + 2^32`. |
| Pagination.BatchEnd | main.go:188-191 | The batch end never exceeds the message count. When `from + step - 1` does not wrap, the end is the smaller of `from + step - 1` and the count. |
| Pagination.NextFrom | main.go:195 | `to + 1` in `uint32`: one more than `to`, except that `2^32 - 1` wraps to 0. |
| Pagination.RangesFromUnfold | main.go:186-196 | One turn of the loop from a `from` inside the mailbox: the batch is non-empty, holds at most `step` numbers, holds exactly `step` unless it ends at the last message, and `to + 1` does not wrap. The remaining batches start at `to + 1`. |
| Pagination.RangesFromBounds | main.go:186-196 | The ranges start at `from` and end at `total`. Each one is non-empty, lies inside `[from, total]` and holds at most `step` sequence numbers. There are none when `from > total`. |
| Pagination.RangesFromContiguous | main.go:186-196 | Each range starts right after the previous one ends. Every range but the last holds exactly `step` sequence numbers. |
| Pagination.RangesFromAscending | main.go:186-196 | Every earlier range ends before every later range starts. |
| Pagination.RangesFromCover | main.go:186-196 | Every sequence number from `from` to `total` lies in some range. |
| Pagination.RangesPartition | main.go:186-196 | The ranges partition `[1, total]` exactly. They start at 1, end at `total`, are contiguous, and hold 1 to `step` numbers each. Every sequence number lies in exactly one range. |
| Pagination.RangesFromCovered | main.go:186-196 | The range lengths add up to `total - from + 1`. |
| Pagination.RangesFromCount | main.go:186-196 | The number of ranges `k` is the least with `k * step >= total - from + 1`. |
| Pagination.RangesCount | main.go:186-196 | There are `(total + step - 1) / step` ranges, which is the ceiling of `total / step`. |
| Pagination.Example450 | main.go:186-196 | 450 messages in batches of 200 give [1,200], [201,400], [401,450]. |
| Pagination.WrapAroundRestarts | main.go:186-195 | Without the no-wrap precondition, the `uint32` loop can fail to terminate. The lemma shows three single steps. With 2^32-1 messages, `from` wraps to 0 after the last batch. With a step of 200, a batch starting near 2^32 ends at 99, and the next `from` is 100. A step of `uint32(2^32)`, which is 0, ends the batch at 0 and sets `from` back to 1. |
| Copier.MessageId | main.go:233-236 | A record without an envelope has the empty Message-ID. A record with an envelope has that envelope's `MessageId`, which may itself be empty. |
| Copier.NoEnvelopeNeverSkipped | main.go:232-243 | A record without an envelope is never skipped, and no search is issued for it. |
| Copier.MessageExists | main.go:261-270 | Exactly one search call is issued. A search error gives "absent". Otherwise the message is present exactly when the result list is non-empty. |
| Copier.EnsureMailbox | main.go:200-206 | A read-only select is issued first. A create is issued exactly when that select fails, and its result is the outcome. A successful select gives success and is the only call issued. Only destination calls are added to the trace. |
| Copier.StepRecord | main.go:224-253 | One record adds at most one to `moved + skipped`, and neither counter decreases. Only destination calls are added to the trace. A failure always comes from an append, which is the last call. |
| Copier.StepRecordCases | main.go:224-253 | A record without a body changes nothing. An empty Message-ID is never skipped. `skipped` grows exactly when the record has a body and a non-empty ID that the search finds; then one search is the only call added. Any other record with a body is appended with its own flags, date and body. `moved` grows exactly when that append succeeds, and a failed append records its error. |
| Copier.CopyRecord | main.go:224-253 | The body of the record loop, with its `continue` statements, computes exactly `StepRecord`. |
| Copier.CopyRecords | main.go:224-253 | Over a batch's records, `moved + skipped` grows by at most the number of records with a body. Counters never decrease. Only destination calls are added. A failure always ends with an append call. |
| Copier.CopyRecordsAbandons | main.go:246-248 | After a failed append, no later record is looked at. Otherwise copying `first + rest` is copying `first`, then `rest`. |
| Copier.AllKnownAllSkipped | main.go:238-243 | If every record with a body has a Message-ID that the search always finds, nothing is moved, nothing fails, every such record is skipped, and the only calls issued are searches. |
| Copier.NoIdNeverSkipped | main.go:232-243 | A batch of records without a Message-ID never increases `skipped`. |
| Copier.CopyBatchRun | main.go:208-258 | One batch issues the fetch first, and only destination calls follow it. Counters never decrease and grow by at most the number of delivered records. |
| Copier.CopyRecordsDestinationOnly | main.go:224-253 | Consuming a batch's records depends only on the destination's search and append replies. |
| Copier.CopyBatchDrains | main.go:224-258 | The fetch's completion status is read only after the records, so it cannot change them. A batch has the same counters and calls as the same batch with its completion replaced by success (`Completed`). A failed append's error takes precedence. Otherwise the fetch's completion error is the batch's error. |
| Copier.CopyBatch | main.go:208-259 | The record loop with its early return computes exactly `CopyBatchRun`. |
| Sync.Paginate | main.go:186-196 | Over a sequence of batches, counters never decrease and the trace only grows. |
| Sync.PaginateFetches | main.go:186-196 | The batches fetched are a prefix of the planned batches, in order. All of them are fetched when nothing failed, and at least one when something failed. |
| Sync.PaginateAbandons | main.go:192-194 | A failed batch abandons every later batch. Paginating `first + rest` is paginating `first`, then `rest` only if nothing in `first` failed. |
| Sync.FailedBatchExists | main.go:192-194 | A failed pagination has a failing batch `k`. Every batch before it succeeded, and the outcome is that batch's outcome. |
| Sync.FailedBatchFetched | main.go:186-196 | The batches fetched end exactly with the failing batch. |
| Sync.PaginateStopsAtFailure | main.go:186-196 | After a failure, the failing batch is the last one fetched, and no later batch is fetched. |
| Sync.PaginateBounded | main.go:184-196 | If the source delivers each sequence number at most once and only inside the batch, then `moved + skipped` grows by at most the total size of the batches. |
| Sync.BatchAllKnown | main.go:208-258 | If the destination already holds every delivered message, one batch moves nothing and issues no append. It skips every delivered message with a body. |
| Sync.PaginateAllKnown | main.go:186-196 | If the destination already holds every delivered message, pagination moves nothing and issues no append. `skipped` grows by the number of delivered messages with a body. |
| Sync.SetupDeliversNothing | main.go:163-179 | The calls before the first batch deliver no message and contain no append: the source select, the ensure step and the read-write select. |
| Sync.SyncRun | main.go:163-198 | The first call of every mailbox is the read-only select of the source mailbox. |
| Sync.SyncEarlyExit | main.go:166-173 | A failed source select gives zero counters and its error. An empty mailbox gives zero counters and no error. In both cases the source select is the only call, so nothing is selected, created or appended on the destination. |
| Sync.SyncFetches | main.go:174-197 | For a non-empty mailbox, the batches fetched are a prefix of the partition of `[1, total]`, and all of it when the mailbox succeeded. |
| Sync.SyncStopsAtFailure | main.go:163-198 | A failed run either failed before any fetch, with zero counters, or failed at batch `k` of the partition of `[1, total]`. In the second case the earlier batches succeeded, the run's outcome is that batch's, and no later batch was fetched. |
| Sync.SyncBounded | main.go:181-197 | With a well-behaved source, `moved + skipped <= total`. |
| Sync.SecondRunMovesNothing | main.go:163-198 | If the destination already holds every source message under its Message-ID and the search is reliable, a run moves nothing and never appends. Its `skipped` equals the number of delivered messages with a body. Under the assumption, each of those carries a Message-ID. |
| Sync.PaginateStep | main.go:186-196 | One turn of the loop runs the first batch. A failed batch ends the run with its partial counters. Otherwise the rest continues from `to + 1`, which does not wrap. |
| Sync.PaginateLoop | main.go:184-197 | The `uint32` loop computes `to := from + step - 1`, clips it and sets `from := to + 1`. It returns the partial counters at the first failed batch, and it equals `Paginate` over the partition. |
| Sync.SyncMailbox | main.go:163-198 | The per-mailbox method equals `SyncRun`. An empty mailbox issues only the source select. With a well-behaved source, `moved + skipped <= total`. The batches fetched are a prefix of the partition. |

## Left out

- `main` is not modelled: its prompts, stdin reading, console output, and the loop over mailboxes that prints each result (lines 36-108). This is user interaction.
- `dialIMAP` and the Go IMAP client library are not modelled, because they do TLS and TCP dialing and login. The sessions are the abstract `Env`.
- The credential cache (`getCacheData`, `setCacheData`, `clearCachedData`) is not modelled, because it does JSON and file I/O.
- `check` (lines 274-278) is not modelled: it only calls `log.Fatal`, which ends the process, and only `main` uses it.
- The message count `mbox.Messages` is read once, when the source mailbox is selected (lines 166, 181, 187-189). The Go loop re-reads it through the status the IMAP library owns, so a count the server changes during the run (new or expunged messages) would move the loop bound. Changes to the source mailbox during a run are not modelled.
- Console output is not modelled: the empty-mailbox message (line 171), the total-count line (line 182), the skip message (line 240), and the progress line of `copyBatch` (lines 251-252), which also uses floating-point formatting.
- The goroutines and channels of `listMailboxes` and `copyBatch` are not modelled. A listing is the sequence of delivered entries plus one completion status, and a fetch is the sequence of delivered records plus one completion status.
- After a failed append, `copyBatch` returns without draining the fetch channel or reading `done` (lines 246-248 and 255). The Go fetch goroutine is left with undelivered records, and its completion status is never read. The model does not represent the abandoned goroutine. Its reply is a finite value that is simply not consumed further.
- The body bytes are not copied through a buffer (`io.Copy`). The body is an opaque byte sequence passed through unchanged.
- `log.Fatal` in `listMailboxes` does not end a process here. `Enumerator.ListMailboxes` returns the distinguished `Fatal` outcome instead.
- Sync.SyncMailbox: requires `count + uint32(batchSize) < 2^32` and a non-zero step for a non-empty mailbox. This is sufficient for the loop to terminate, but slightly stronger than the exact condition. For some counts within one step of 2^32 the Go loop still ends.
- Sync.PaginateLoop: has the same no-wrap precondition as `SyncMailbox`.
- Sync.SyncBounded: proves `moved + skipped <= total` only for a source that delivers each sequence number at most once and only inside the requested batch (`FaithfulFetch`). Without that, nothing bounds how many records a fetch delivers.
- Copier.StepRecord: `moved` and `skipped` are unbounded naturals. This assumes a 64-bit target, where Go's `int` cannot overflow below `2^32` records. On a 32-bit target Go's `int` is 32 bits wide. There, `moved`, `skipped` and `int(mbox.Messages)` (line 181) overflow past `2^31 - 1`, which is not modelled.
- Enumerator.ListMailboxes: `strings.EqualFold` is modelled only with an ASCII second argument, which is the only way the engine uses it. `FoldChar` covers exactly the Unicode simple-folding classes that contain an ASCII letter: the ASCII letters, U+017F LATIN SMALL LETTER LONG S and U+212A KELVIN SIGN.
- Copier.MessageExists: the mailbox argument of `messageExists` is ignored, as in the source. The search runs in whatever destination mailbox is currently selected.
- The listing's name pattern and the IMAP wire formats of LIST, FETCH, SEARCH and APPEND are not modelled.
- The model follows the code: only a missing body (`nil`) is dropped. A body that is present but empty is still appended. After `ensureMailbox`, the destination is selected once more in read-write mode before any batch.

=== FILE: address.dfy ===
/** Host extraction from a `host:port` server address, used to set the TLS
    server name when dialing. */
module Address {

  /** The index of the last occurrence of `c` in `s`, or -1 when `c` does
      not occur. This is Go's `strings.LastIndex` for a one-character
      needle, except that Go counts UTF-8 bytes and this counts characters.
      For the ASCII ':' both name the same occurrence, are 0 for the same
      strings, and cut off the same prefix, so `HostFromAddr` is unaffected. */
  function LastIndex(s: string, c: char): (i: int)
    ensures -1 <= i < |s|
    ensures 0 <= i ==> s[i] == c && forall j :: i < j < |s| ==> s[j] != c
    ensures i == -1 ==> forall j :: 0 <= j < |s| ==> s[j] != c
  {
    if |s| == 0 then -1
    else if s[|s| - 1] == c then |s| - 1
    else LastIndex(s[..|s| - 1], c)
  }

  /** Everything before the last ':', provided that colon is not the first
      character; otherwise the address itself. */
  function HostFromAddr(addr: string): (host: string)
    ensures host <= addr
    ensures host == addr <==> forall j :: 0 < j < |addr| ==> addr[j] != ':'
    ensures host != addr ==>
              && 0 < |host| < |addr|
              && addr[|host|] == ':'
              && forall j :: |host| < j < |addr| ==> addr[j] != ':'
  {
    var i := LastIndex(addr, ':');
    if i > 0 then addr[..i] else addr
  }

  /** Joining a non-empty host and a colon-free port with ':' and then
      extracting the host gives the host back. */
  lemma HostOfHostPort(host: string, port: string)
    requires |host| > 0
    requires forall j :: 0 <= j < |port| ==> port[j] != ':'
    ensures HostFromAddr(host + ":" + port) == host
  {
    var addr := host + ":" + port;
    assert addr[|host|] == ':';
    assert forall j :: |host| < j < |addr| ==> addr[j] == port[j - |host| - 1];
    var h := HostFromAddr(addr);
    assert h != addr;
    assert |h| == |host|;
    assert addr[..|host|] == host;
  }

  /** Worked examples: a named host, a bracketed IPv6 literal whose own
      colons precede the port separator, and addresses left unchanged. */
  lemma HostExamples()
    ensures HostFromAddr("imap.gmail.com:993") == "imap.gmail.com"
    ensures HostFromAddr("[::1]:993") == "[::1]"
    ensures HostFromAddr("localhost") == "localhost"
    ensures HostFromAddr(":993") == ":993"
  {
    HostOfHostPort("imap.gmail.com", "993");
    assert "imap.gmail.com" + ":" + "993" == "imap.gmail.com:993";
    HostOfHostPort("[::1]", "993");
    assert "[::1]" + ":" + "993" == "[::1]:993";
  }
}

=== FILE: copier.dfy ===
/** The per-batch copy: the dedup check, the destination-mailbox ensure
    step, and the consumption of one fetched batch. */
module Copier {
  import opened Wrappers
  import opened Pagination
  import opened Session
  import Resolver

  /** Progress of one mailbox: the calls issued so far, the moved and
      skipped counters, and the error that ended the copy, if any. */
  datatype Run = Run(trace: Trace, moved: nat, skipped: nat, failure: Option<Error>)
  {
    function Handled(): nat { moved + skipped }
  }

  /** The record's Message-ID, or "" when it has no envelope. */
  function MessageId(rec: Record): (id: string)
    ensures rec.envelope.None? ==> id == ""
    ensures id != "" ==> rec.envelope.Some? && id == rec.envelope.value.messageId
    ensures rec.envelope.Some? ==> id == rec.envelope.value.messageId
  {
    if rec.envelope.Some? then rec.envelope.value.messageId else ""
  }

  /** A search reply that reports at least one match. */
  predicate Found(reply: Result<seq<u32>, Error>)
  {
    reply.Ok? && |reply.value| > 0
  }

  /** The dedup check: a header search for `messageId` in the currently
      selected destination mailbox. A failed search counts as "absent". */
  function MessageExists(env: Env, trace: Trace, messageId: string): (r: Answer<bool>)
    ensures r.trace == trace + [DestSearch(messageId)]
    ensures env.destSearch(trace, messageId).Err? ==> !r.value
    ensures env.destSearch(trace, messageId).Ok? ==>
              (r.value <==> |env.destSearch(trace, messageId).value| > 0)
  {
    match env.destSearch(trace, messageId)
    case Err(_) => Answer(false, trace + [DestSearch(messageId)])
    case Ok(ids) => Answer(|ids| > 0, trace + [DestSearch(messageId)])
  }

  /** Make sure the destination mailbox exists: a read-only select, and a
      create only when that select fails. */
  function EnsureMailbox(env: Env, trace: Trace, name: string): (r: Answer<Outcome<Error>>)
    ensures trace + [DestSelect(name, true)] <= r.trace
    ensures DestCreate(name) in r.trace[|trace|..] <==> env.destSelect(trace, name, true).Fail?
    ensures env.destSelect(trace, name, true).Pass? ==>
              r.value.Pass? && r.trace == trace + [DestSelect(name, true)]
    ensures env.destSelect(trace, name, true).Fail? ==>
              r.value == env.destCreate(trace + [DestSelect(name, true)], name)
    ensures DestinationSuffix(trace, r.trace) && |r.trace| <= |trace| + 2
  {
    var selected := trace + [DestSelect(name, true)];
    match env.destSelect(trace, name, true)
    case Pass => Answer(Pass, selected)
    case Fail(_) =>
      var created := selected + [DestCreate(name)];
      assert created[|trace|..] == [DestSelect(name, true), DestCreate(name)];
      Answer(env.destCreate(selected, name), created)
  }

  /** The record is skipped as a duplicate: it has a body and a non-empty
      Message-ID that the destination search finds. */
  predicate Skipped(env: Env, trace: Trace, rec: Record)
  {
    rec.body.Some? && MessageId(rec) != "" && Found(env.destSearch(trace, MessageId(rec)))
  }

  /** The trace after the dedup check of `rec`, if one is made. */
  function Probed(trace: Trace, rec: Record): Trace
  {
    if MessageId(rec) != "" then trace + [DestSearch(MessageId(rec))] else trace
  }

  /** The append request for `rec`: its own flags, date and body. */
  function OutgoingOf(box: string, rec: Record): Outgoing
    requires rec.body.Some?
  {
    Outgoing(box, rec.flags, rec.internalDate, rec.body.value)
  }

  /** The record is appended: it has a body and is not skipped. */
  predicate Appended(env: Env, trace: Trace, rec: Record)
  {
    rec.body.Some? && !Skipped(env, trace, rec)
  }

  /** What happens to one record delivered by a fetch. */
  function StepRecord(env: Env, box: string, run: Run, rec: Record): (r: Run)
    requires run.failure.None?
    ensures r.Handled() <= run.Handled() + 1
    ensures run.moved <= r.moved && run.skipped <= r.skipped
    ensures r.failure.Some? ==> |r.trace| > 0 && r.trace[|r.trace| - 1].DestAppend?
    ensures DestinationSuffix(run.trace, r.trace)
  {
    match rec.body
    case None => run
    case Some(body) =>
      var id := MessageId(rec);
      var probe := if id != "" then MessageExists(env, run.trace, id) else Answer(false, run.trace);
      if probe.value then
        run.(trace := probe.trace, skipped := run.skipped + 1)
      else
        var out := Outgoing(box, rec.flags, rec.internalDate, body);
        var t := probe.trace + [DestAppend(out)];
        match env.destAppend(probe.trace, out)
        case Fail(e) => run.(trace := t, failure := Some(e))
        case Pass => run.(trace := t, moved := run.moved + 1)
  }

  /** The three ways a record can go. A record without a body changes
      nothing. A record whose non-empty Message-ID the destination search
      finds costs one search and increments only `skipped`; a record with
      an empty Message-ID is never skipped. Any other record is appended
      with its own flags, internal date and body, and `moved` grows exactly
      when that append succeeds; a failed append records its error. */
  lemma StepRecordCases(env: Env, box: string, run: Run, rec: Record)
    requires run.failure.None?
    ensures var r := StepRecord(env, box, run, rec);
      && (rec.body.None? ==> r == run)
      && (MessageId(rec) == "" ==> r.skipped == run.skipped)
      && (r.skipped == run.skipped + 1 <==> Skipped(env, run.trace, rec))
      && (Skipped(env, run.trace, rec) ==>
            r == run.(trace := run.trace + [DestSearch(MessageId(rec))], skipped := run.skipped + 1))
      && (Appended(env, run.trace, rec) ==>
            var t := Probed(run.trace, rec);
            var status := env.destAppend(t, OutgoingOf(box, rec));
            && r.trace == t + [DestAppend(OutgoingOf(box, rec))]
            && r.skipped == run.skipped
            && (status.Pass? ==> r.moved == run.moved + 1 && r.failure.None?)
            && (status.Fail? ==> r.moved == run.moved && r.failure == Some(status.error)))
  {
  }

  /** The number of records that carry a body. */
  function WithBody(recs: seq<Record>): (n: nat)
    ensures n <= |recs|
  {
    if |recs| == 0 then 0
    else (if recs[0].body.Some? then 1 else 0) + WithBody(recs[1..])
  }

  /** Reference definition of consuming a batch's records in arrival order,
      stopping at the first failed append. */
  function CopyRecords(env: Env, box: string, run: Run, recs: seq<Record>): (r: Run)
    requires run.failure.None?
    ensures r.Handled() <= run.Handled() + WithBody(recs)
    ensures run.moved <= r.moved && run.skipped <= r.skipped
    ensures DestinationSuffix(run.trace, r.trace)
    ensures r.failure.Some? ==> |r.trace| > |run.trace| && r.trace[|r.trace| - 1].DestAppend?
    decreases |recs|
  {
    if |recs| == 0 then run
    else
      var next := StepRecord(env, box, run, recs[0]);
      if next.failure.Some? then next
      else CopyRecords(env, box, next, recs[1..])
  }

  /** A failed append abandons every later record: records after the one
      whose append failed are never looked at. */
  lemma {:induction false} CopyRecordsAbandons(env: Env, box: string, run: Run, first: seq<Record>, rest: seq<Record>)
    requires run.failure.None?
    ensures var r1 := CopyRecords(env, box, run, first);
      CopyRecords(env, box, run, first + rest) ==
        (if r1.failure.Some? then r1 else CopyRecords(env, box, r1, rest))
    decreases |first|
  {
    if |first| == 0 {
      assert first + rest == rest;
    } else {
      var all := first + rest;
      assert all[0] == first[0];
      assert all[1..] == first[1..] + rest;
      var next := StepRecord(env, box, run, first[0]);
      if next.failure.None? {
        CopyRecordsAbandons(env, box, next, first[1..], rest);
      }
    }
  }

  /** Every call `b` adds to `a` is a destination search. */
  ghost predicate OnlySearches(a: Trace, b: Trace)
  {
    a <= b && forall k :: |a| <= k < |b| ==> b[k].DestSearch?
  }

  /** Reliable dedup: when every record with a body carries a Message-ID
      that the destination search always finds, nothing is moved and every
      such record is counted as skipped. */
  lemma {:induction false} AllKnownAllSkipped(env: Env, box: string, run: Run, recs: seq<Record>)
    requires run.failure.None?
    requires forall i :: 0 <= i < |recs| && recs[i].body.Some? ==> MessageId(recs[i]) != ""
    requires forall i, t: Trace :: 0 <= i < |recs| && recs[i].body.Some? ==>
               Found(env.destSearch(t, MessageId(recs[i])))
    ensures var r := CopyRecords(env, box, run, recs);
      r.moved == run.moved && r.skipped == run.skipped + WithBody(recs) && r.failure.None?
    ensures OnlySearches(run.trace, CopyRecords(env, box, run, recs).trace)
    decreases |recs|
  {
    if |recs| > 0 {
      if recs[0].body.Some? {
        assert Skipped(env, run.trace, recs[0]);
      }
      AllKnownAllSkipped(env, box, StepRecord(env, box, run, recs[0]), recs[1..]);
    }
  }

  /** A record without an envelope has no Message-ID, so it is never
      looked up and never skipped. */
  lemma NoEnvelopeNeverSkipped(env: Env, box: string, run: Run, rec: Record)
    requires run.failure.None?
    requires rec.envelope.None?
    ensures !Skipped(env, run.trace, rec)
    ensures StepRecord(env, box, run, rec).skipped == run.skipped
    ensures forall k :: |run.trace| <= k < |StepRecord(env, box, run, rec).trace| ==>
              !StepRecord(env, box, run, rec).trace[k].DestSearch?
  {
    StepRecordCases(env, box, run, rec);
  }

  /** Records without a Message-ID are never skipped. */
  lemma {:induction false} NoIdNeverSkipped(env: Env, box: string, run: Run, recs: seq<Record>)
    requires run.failure.None?
    requires forall i :: 0 <= i < |recs| ==> MessageId(recs[i]) == ""
    ensures CopyRecords(env, box, run, recs).skipped == run.skipped
    decreases |recs|
  {
    if |recs| > 0 {
      var next := StepRecord(env, box, run, recs[0]);
      if next.failure.None? {
        NoIdNeverSkipped(env, box, next, recs[1..]);
      }
    }
  }

  /** Reference definition of one batch: fetch the range, consume every
      delivered record, and only then look at the fetch's completion
      status. A failed append wins over a fetch error. */
  function CopyBatchRun(env: Env, name: string, run: Run, b: Range): (r: Run)
    requires run.failure.None?
    ensures r.Handled() <= run.Handled() + |env.sourceFetch(run.trace, b).records|
    ensures run.moved <= r.moved && run.skipped <= r.skipped
    ensures DestinationSuffix(run.trace + [SourceFetch(b)], r.trace)
  {
    var reply := env.sourceFetch(run.trace, b);
    var drained := CopyRecords(env, Resolver.Resolve(name),
                               run.(trace := run.trace + [SourceFetch(b)]), reply.records);
    if drained.failure.Some? then drained
    else match reply.done
      case Fail(e) => drained.(failure := Some(e))
      case Pass => drained
  }

  /** The same sessions, except that every fetch completes successfully. */
  function Completed(env: Env): (e: Env)
    ensures e.destSearch == env.destSearch && e.destAppend == env.destAppend
    ensures forall t, b :: e.sourceFetch(t, b) == FetchReply(env.sourceFetch(t, b).records, Pass)
  {
    env.(sourceFetch := (t: Trace, b: Range) => FetchReply(env.sourceFetch(t, b).records, Pass))
  }

  /** Consuming records depends only on the destination's search and
      append replies. */
  lemma {:induction false} CopyRecordsDestinationOnly(env: Env, env2: Env, box: string, run: Run, recs: seq<Record>)
    requires run.failure.None?
    requires env.destSearch == env2.destSearch && env.destAppend == env2.destAppend
    ensures CopyRecords(env, box, run, recs) == CopyRecords(env2, box, run, recs)
    decreases |recs|
  {
    if |recs| > 0 {
      var next := StepRecord(env, box, run, recs[0]);
      assert next == StepRecord(env2, box, run, recs[0]);
      if next.failure.None? {
        CopyRecordsDestinationOnly(env, env2, box, next, recs[1..]);
      }
    }
  }

  /** A batch consumes every delivered record before the fetch's completion
      status is looked at: the counters and calls are those of the same
      batch with a successful completion. A failed append's error wins;
      otherwise the fetch's own error, if any, is the batch's error. */
  lemma CopyBatchDrains(env: Env, name: string, run: Run, b: Range)
    requires run.failure.None?
    ensures var r := CopyBatchRun(env, name, run, b);
      var c := CopyBatchRun(Completed(env), name, run, b);
      var done := env.sourceFetch(run.trace, b).done;
      && r.moved == c.moved && r.skipped == c.skipped && r.trace == c.trace
      && (c.failure.Some? ==> r.failure == c.failure)
      && (c.failure.None? && done.Fail? ==> r.failure == Some(done.error))
      && (c.failure.None? && done.Pass? ==> r.failure.None?)
  {
    var start := run.(trace := run.trace + [SourceFetch(b)]);
    var recs := env.sourceFetch(run.trace, b).records;
    assert Completed(env).sourceFetch(run.trace, b).records == recs;
    CopyRecordsDestinationOnly(env, Completed(env), Resolver.Resolve(name), start, recs);
  }

  /** The body of the engine's record loop: a record without a body is
      dropped, a known Message-ID is skipped, anything else is appended. */
  method CopyRecord(env: Env, box: string, run: Run, rec: Record) returns (r: Run)
    requires run.failure.None?
    ensures r == StepRecord(env, box, run, rec)
  {
    r := run;
    if rec.body.None? {
      return;
    }
    var id := MessageId(rec);
    if id != "" {
      var probe := MessageExists(env, r.trace, id);
      r := r.(trace := probe.trace);
      if probe.value {
        r := r.(skipped := r.skipped + 1);
        return;
      }
    }
    var out := Outgoing(box, rec.flags, rec.internalDate, rec.body.value);
    var status := env.destAppend(r.trace, out);
    r := r.(trace := r.trace + [DestAppend(out)]);
    if status.Fail? {
      r := r.(failure := Some(status.error));
    } else {
      r := r.(moved := r.moved + 1);
    }
  }

  /** The batch loop of the engine: records are consumed as they arrive, a
      failed append returns at once, and the fetch's status is checked once
      after the last record. */
  method CopyBatch(env: Env, name: string, run: Run, from: u32, to: u32) returns (r: Run)
    requires run.failure.None?
    ensures r == CopyBatchRun(env, name, run, Range(from, to))
  {
    var b := Range(from, to);
    var reply := env.sourceFetch(run.trace, b);
    var start := run.(trace := run.trace + [SourceFetch(b)]);
    var box := Resolver.Resolve(name);
    var cur := start;
    var i := 0;
    while i < |reply.records|
      invariant 0 <= i <= |reply.records|
      invariant cur.failure.None?
      invariant CopyRecords(env, box, cur, reply.records[i..]) ==
                CopyRecords(env, box, start, reply.records)
    {
      var next := CopyRecord(env, box, cur, reply.records[i]);
      assert reply.records[i..][1..] == reply.records[i + 1..];
      if next.failure.Some? {
        return next;
      }
      cur := next;
      i := i + 1;
    }
    if reply.done.Fail? {
      return cur.(failure := Some(reply.done.error));
    }
    return cur;
  }
}

=== FILE: enumerator.dfy ===
/** The mailbox enumerator: the source's hierarchical listing, minus the
    pure container nodes that carry the `\Noselect` attribute (section 7.2.2
    of RFC 3501), in the order the server returned them. */
module Enumerator {
  import opened Wrappers
  import opened Session

  /** One listed entry: its attributes and its hierarchical name. */
  datatype MailboxInfo = MailboxInfo(attributes: seq<string>, name: string)

  /** Result of an enumeration: the selectable names, or the fatal error
      that ends the whole run. */
  datatype Listing = Listed(names: seq<string>) | Fatal(error: Error)

  /** The attribute that marks a non-selectable hierarchy node. */
  const Noselect: string := "\\Noselect"

  /** The representative of `c` under Unicode simple case folding, for the
      folding classes that contain an ASCII letter: ASCII upper case maps to
      lower case, LATIN SMALL LETTER LONG S to 's' and KELVIN SIGN to 'k'.
      Every other character is its own representative. */
  function FoldChar(c: char): (r: char)
    ensures !('A' <= r <= 'Z') && r != '\U{017F}' && r != '\U{212A}'
    ensures 'A' <= c <= 'Z' ==> 'a' <= r <= 'z'
    ensures 'a' <= r <= 'z' ==>
              c == r || c as int == r as int - 32 ||
              (r == 's' && c == '\U{017F}') || (r == 'k' && c == '\U{212A}')
    ensures 'a' <= c <= 'z' ==> r == c
    ensures c == '\U{017F}' ==> r == 's'
    ensures c == '\U{212A}' ==> r == 'k'
    ensures !('A' <= c <= 'Z') && c != '\U{017F}' && c != '\U{212A}' ==> r == c
  {
    if 'A' <= c <= 'Z' then (c as int + 32) as char
    else if c == '\U{017F}' then 's'
    else if c == '\U{212A}' then 'k'
    else c
  }

  predicate IsAscii(s: string)
  {
    forall i :: 0 <= i < |s| ==> s[i] < '\U{80}'
  }

  /** Case-insensitive equality of Go's `strings.EqualFold`, for a second
      argument made of ASCII characters only (the only way it is used);
      lengths are counted in Unicode scalar values. */
  predicate EqualFold(s: string, t: string)
    requires IsAscii(t)
  {
    |s| == |t| && forall i :: 0 <= i < |s| ==> FoldChar(s[i]) == FoldChar(t[i])
  }

  predicate IsNoselect(attr: string)
  {
    EqualFold(attr, Noselect)
  }

  predicate HasNoselect(attrs: seq<string>)
  {
    exists j :: 0 <= j < |attrs| && IsNoselect(attrs[j])
  }

  predicate Selectable(m: MailboxInfo)
  {
    !HasNoselect(m.attributes)
  }

  /** Reference definition: the names of the selectable entries, in order. */
  function SelectableNames(entries: seq<MailboxInfo>): seq<string>
  {
    if |entries| == 0 then []
    else
      var last := entries[|entries| - 1];
      SelectableNames(entries[..|entries| - 1]) + (if Selectable(last) then [last.name] else [])
  }

  /** `idx` maps every output position to the input position it came from:
      strictly increasing (nothing reordered), only selectable entries
      (nothing added, every `\Noselect` entry removed), and every selectable
      entry is hit (nothing else removed). */
  ghost predicate Embedding(idx: seq<nat>, entries: seq<MailboxInfo>, names: seq<string>)
  {
    && |idx| == |names|
    && (forall k :: 0 <= k < |idx| ==>
          idx[k] < |entries| && names[k] == entries[idx[k]].name && Selectable(entries[idx[k]]))
    && (forall k1, k2 :: 0 <= k1 < k2 < |idx| ==> idx[k1] < idx[k2])
    && (forall i :: 0 <= i < |entries| && Selectable(entries[i]) ==> i in idx)
  }

  /** The filter removes exactly the `\Noselect` entries and keeps the rest
      in server order. */
  lemma {:induction false} SelectableNamesExact(entries: seq<MailboxInfo>)
    ensures exists idx :: Embedding(idx, entries, SelectableNames(entries))
  {
    if |entries| == 0 {
      var none: seq<nat> := [];
      assert Embedding(none, entries, SelectableNames(entries));
    } else {
      var n := |entries| - 1;
      var init := entries[..n];
      SelectableNamesExact(init);
      var idx0 :| Embedding(idx0, init, SelectableNames(init));
      if Selectable(entries[n]) {
        EmbeddingKeepLast(idx0, entries, SelectableNames(init));
        assert Embedding(idx0 + [n], entries, SelectableNames(entries));
      } else {
        EmbeddingDropLast(idx0, entries, SelectableNames(init));
        assert Embedding(idx0, entries, SelectableNames(entries));
      }
    }
  }

  /** Extending an embedding by a selectable last entry. */
  lemma EmbeddingKeepLast(idx0: seq<nat>, entries: seq<MailboxInfo>, names0: seq<string>)
    requires |entries| > 0 && Selectable(entries[|entries| - 1])
    requires Embedding(idx0, entries[..|entries| - 1], names0)
    ensures Embedding(idx0 + [|entries| - 1], entries, names0 + [entries[|entries| - 1].name])
  {
    var n := |entries| - 1;
    var init := entries[..n];
    var idx := idx0 + [n];
    var names := names0 + [entries[n].name];
    forall k | 0 <= k < |idx|
      ensures idx[k] < |entries| && names[k] == entries[idx[k]].name && Selectable(entries[idx[k]])
    {
      if k < |idx0| {
        assert idx[k] == idx0[k] && names[k] == names0[k];
        assert init[idx0[k]] == entries[idx0[k]];
      }
    }
    forall i | 0 <= i < |entries| && Selectable(entries[i])
      ensures i in idx
    {
      if i < n {
        assert init[i] == entries[i];
        assert i in idx0;
      } else {
        assert idx[|idx0|] == i;
      }
    }
  }

  /** An embedding survives a non-selectable last entry unchanged. */
  lemma EmbeddingDropLast(idx0: seq<nat>, entries: seq<MailboxInfo>, names0: seq<string>)
    requires |entries| > 0 && !Selectable(entries[|entries| - 1])
    requires Embedding(idx0, entries[..|entries| - 1], names0)
    ensures Embedding(idx0, entries, names0)
  {
    var n := |entries| - 1;
    var init := entries[..n];
    forall k | 0 <= k < |idx0|
      ensures idx0[k] < |entries| && names0[k] == entries[idx0[k]].name && Selectable(entries[idx0[k]])
    {
      assert init[idx0[k]] == entries[idx0[k]];
    }
    forall i | 0 <= i < |entries| && Selectable(entries[i])
      ensures i in idx0
    {
      assert init[i] == entries[i];
    }
  }

  /** Lower-cases the ASCII letters 'A'..'Z' and keeps every other
      character. */
  function AsciiLower(s: string): (r: string)
    ensures |r| == |s|
    ensures forall i :: 0 <= i < |s| && 'A' <= s[i] <= 'Z' ==> r[i] as int == s[i] as int + 32
    ensures forall i :: 0 <= i < |s| && !('A' <= s[i] <= 'Z') ==> r[i] == s[i]
  {
    seq(|s|, i requires 0 <= i < |s| => if 'A' <= s[i] <= 'Z' then (s[i] as int + 32) as char else s[i])
  }

  /** On ASCII strings, `EqualFold` is equality after lower-casing the
      ASCII letters. */
  lemma EqualFoldAscii(s: string, t: string)
    requires IsAscii(s) && IsAscii(t)
    ensures EqualFold(s, t) <==> AsciiLower(s) == AsciiLower(t)
  {
    var ls, lt := AsciiLower(s), AsciiLower(t);
    assert forall i :: 0 <= i < |s| ==> ls[i] == FoldChar(s[i]);
    assert forall i :: 0 <= i < |t| ==> lt[i] == FoldChar(t[i]);
    if EqualFold(s, t) {
      assert forall i :: 0 <= i < |ls| ==> ls[i] == lt[i];
    }
  }

  /** Converting ASCII letters to lower case never changes whether an
      attribute reads `\Noselect`. */
  lemma NoselectIgnoresAsciiCase(attr: string)
    ensures IsNoselect(attr) <==> IsNoselect(AsciiLower(attr))
  {
    var low := AsciiLower(attr);
    assert forall i :: 0 <= i < |attr| ==> FoldChar(low[i]) == FoldChar(attr[i]);
  }

  /** `\Noselect` in any ASCII case is `\Noselect`. */
  lemma NoselectSpellings()
    ensures IsNoselect("\\Noselect")
    ensures IsNoselect("\\NOSELECT")
    ensures IsNoselect("\\noselect")
  {
  }

  /** LATIN SMALL LETTER LONG S folds to 's', so it spells `\Noselect` too. */
  lemma NoselectLongS()
    ensures IsNoselect("\\no\U{017F}elect")
    ensures IsNoselect("\\NO\U{017F}ELECT")
  {
    assert FoldChar('\U{017F}') == 's';
  }

  /** Other attributes, and `Noselect` without its backslash, are kept. */
  lemma OtherAttributes()
    ensures !IsNoselect("\\Noinferiors")
    ensures !IsNoselect("\\HasNoChildren")
    ensures !IsNoselect("Noselect")
  {
    assert "\\Noinferiors"[3] == 'i';
  }

  /** The listing loop: every listed entry is kept unless one of its
      attributes is `\Noselect`; the listing's terminal status is inspected
      only after all entries were consumed, and an error there is fatal. */
  method ListMailboxes(entries: seq<MailboxInfo>, done: Outcome<Error>) returns (r: Listing)
    ensures done.Fail? ==> r == Fatal(done.error)
    ensures done.Pass? ==> r == Listed(SelectableNames(entries))
    ensures r.Listed? ==> |r.names| <= |entries|
  {
    var names: seq<string> := [];
    var i := 0;
    while i < |entries|
      invariant 0 <= i <= |entries|
      invariant names == SelectableNames(entries[..i])
      invariant |names| <= i
    {
      var m := entries[i];
      var skip := false;
      var j := 0;
      while j < |m.attributes|
        invariant 0 <= j <= |m.attributes|
        invariant !skip
        invariant forall k :: 0 <= k < j ==> !IsNoselect(m.attributes[k])
      {
        if EqualFold(m.attributes[j], Noselect) {
          skip := true;
          break;
        }
        j := j + 1;
      }
      assert skip <==> HasNoselect(m.attributes);
      if !skip {
        names := names + [m.name];
      }
      assert entries[..i + 1][..i] == entries[..i];
      i := i + 1;
    }
    assert entries[..i] == entries;
    if done.Fail? {
      return Fatal(done.error);
    }
    return Listed(names);
  }
}

=== FILE: pagination.dfy ===
/** Batch pagination: the sequence-number interval [1, total] of a selected
    mailbox is cut into ascending, contiguous, inclusive ranges of at most
    `uint32(batchSize)` messages, computed in 32-bit unsigned arithmetic. */
module Pagination {

  const U32: int := 0x1_0000_0000

  /** Go's `uint32`. */
  type u32 = x: int | 0 <= x < 0x1_0000_0000

  /** Reduction modulo 2^32: the result of a `uint32` addition, subtraction
      or conversion. */
  function Wrap(x: int): (r: u32)
    ensures 0 <= x < U32 ==> r == x
    ensures -U32 <= x < 0 ==> r == x + U32
    ensures U32 <= x < 2 * U32 ==> r == x - U32
  {
    x % U32
  }

  /** `uint32(batchSize)` for a Go `int` batch size. */
  function Step(batchSize: int): (step: u32)
    ensures 0 <= batchSize < U32 ==> step == batchSize
    ensures -U32 <= batchSize < 0 ==> step == batchSize + U32
  {
    Wrap(batchSize)
  }

  /** An inclusive range of message sequence numbers. */
  datatype Range = Range(from: u32, to: u32)
  {
    /** Number of sequence numbers in the range. */
    function Length(): int { to - from + 1 }

    predicate Contains(n: int) { from <= n <= to }
  }

  /** Sequence number `n` lies in one of the ranges. */
  ghost predicate InSome(rs: seq<Range>, n: int)
  {
    exists i :: 0 <= i < |rs| && rs[i].Contains(n)
  }

  /** One pass of the pagination loop from `from`: the end of the batch,
      `from + step - 1` in 32-bit arithmetic, clipped to `total`. */
  function BatchEnd(from: u32, total: u32, step: u32): (to: u32)
    ensures to <= total
    ensures 1 <= from + step <= U32 ==>
              to == if from + step - 1 < total then from + step - 1 else total
  {
    var to := Wrap(from + step - 1);
    if to > total then total else to
  }

  /** The start of the next batch: `to + 1` in 32-bit arithmetic. */
  function NextFrom(to: u32): (next: u32)
    ensures to < U32 - 1 ==> next == to + 1
    ensures to == U32 - 1 ==> next == 0
  {
    Wrap(to + 1)
  }

  /** The loop cannot wrap around: a non-zero step, and the last sequence
      number plus the step still fits in 32 bits. */
  predicate Fits(total: u32, step: u32)
  {
    step >= 1 && total + step < U32
  }

  /** The ranges the loop visits when started at `from`. */
  function RangesFrom(from: u32, total: u32, step: u32): (rs: seq<Range>)
    requires 1 <= from
    requires Fits(total, step)
    decreases U32 - from
  {
    if from > total then []
    else
      var to := BatchEnd(from, total, step);
      assert from <= to < U32 - 1;
      [Range(from, to)] + RangesFrom(NextFrom(to), total, step)
  }

  /** All ranges of a mailbox with `total` messages. */
  function Ranges(total: u32, step: u32): seq<Range>
    requires Fits(total, step)
  {
    RangesFrom(1, total, step)
  }

  /** The loop's ranges from `from` on start at `from`, end at `total`,
      are non-empty, lie within [from, total] and hold at most `step`
      sequence numbers. */
  lemma {:induction false} RangesFromBounds(from: u32, total: u32, step: u32)
    requires 1 <= from
    requires Fits(total, step)
    ensures var rs := RangesFrom(from, total, step);
      && (from > total <==> rs == [])
      && (from <= total ==> rs[0].from == from && rs[|rs| - 1].to == total)
      && (forall i :: 0 <= i < |rs| ==>
            from <= rs[i].from <= rs[i].to <= total && rs[i].Length() <= step)
    decreases U32 - from
  {
    if from <= total {
      var to := BatchEnd(from, total, step);
      RangesFromBounds(NextFrom(to), total, step);
      var rs := RangesFrom(from, total, step);
      var rest := RangesFrom(NextFrom(to), total, step);
      assert forall i :: 1 <= i < |rs| ==> rs[i] == rest[i - 1];
    }
  }

  /** One unfolding of the loop from a `from` inside the mailbox: the first
      batch is non-empty, at most `step` long, exactly `step` long unless
      it ends at `total`, and neither `to` nor `to + 1` wraps. */
  lemma RangesFromUnfold(from: u32, total: u32, step: u32)
    requires 1 <= from <= total
    requires Fits(total, step)
    ensures var to := BatchEnd(from, total, step);
      && from <= to <= total
      && NextFrom(to) == to + 1
      && Range(from, to).Length() <= step
      && (to < total ==> Range(from, to).Length() == step)
      && RangesFrom(from, total, step) == [Range(from, to)] + RangesFrom(NextFrom(to), total, step)
  {
  }

  /** Each range starts right after its predecessor, and every range but
      the last holds exactly `step` sequence numbers. */
  lemma {:induction false} RangesFromContiguous(from: u32, total: u32, step: u32)
    requires 1 <= from
    requires Fits(total, step)
    ensures var rs := RangesFrom(from, total, step);
      forall i :: 0 <= i < |rs| - 1 ==> rs[i + 1].from == rs[i].to + 1 && rs[i].Length() == step
    decreases U32 - from
  {
    if from <= total {
      var to := BatchEnd(from, total, step);
      var next := NextFrom(to);
      RangesFromUnfold(from, total, step);
      RangesFromContiguous(next, total, step);
      RangesFromBounds(next, total, step);
      var rs := RangesFrom(from, total, step);
      var rest := RangesFrom(next, total, step);
      forall i | 0 <= i < |rs| - 1
        ensures rs[i + 1].from == rs[i].to + 1 && rs[i].Length() == step
      {
        assert rs[i + 1] == rest[i];
        if i > 0 {
          assert rs[i] == rest[i - 1];
        }
      }
    }
  }

  /** Ranges are strictly ascending: every earlier range ends before every
      later one starts. */
  lemma {:induction false} RangesFromAscending(from: u32, total: u32, step: u32)
    requires 1 <= from
    requires Fits(total, step)
    ensures var rs := RangesFrom(from, total, step);
      forall i, j :: 0 <= i < j < |rs| ==> rs[i].to < rs[j].from
    decreases U32 - from
  {
    if from <= total {
      var to := BatchEnd(from, total, step);
      var next := NextFrom(to);
      RangesFromAscending(next, total, step);
      RangesFromBounds(next, total, step);
      var rs := RangesFrom(from, total, step);
      var rest := RangesFrom(next, total, step);
      assert forall i :: 1 <= i < |rs| ==> rs[i] == rest[i - 1];
      assert forall j :: 0 <= j < |rest| ==> to < rest[j].from;
    }
  }

  /** Every sequence number from `from` to `total` lies in some range. */
  lemma {:induction false} RangesFromCover(from: u32, total: u32, step: u32)
    requires 1 <= from
    requires Fits(total, step)
    ensures forall n: int :: from <= n <= total ==> InSome(RangesFrom(from, total, step), n)
    decreases U32 - from
  {
    if from <= total {
      var to := BatchEnd(from, total, step);
      var next := NextFrom(to);
      RangesFromCover(next, total, step);
      var rs := RangesFrom(from, total, step);
      var rest := RangesFrom(next, total, step);
      assert next == to + 1 && from <= to;
      assert rs == [Range(from, to)] + rest;
      forall n: int | from <= n <= total
        ensures InSome(rs, n)
      {
        if n > to {
          assert InSome(rest, n);
          var i :| 0 <= i < |rest| && rest[i].Contains(n);
          assert rs[i + 1] == rest[i];
        } else {
          assert rs[0].Contains(n);
        }
      }
    }
  }

  /** The ranges partition [1, total] exactly: they start at 1, end at
      `total`, are contiguous and ascending, each holds between 1 and `step`
      sequence numbers, and every sequence number lies in exactly one. */
  lemma RangesPartition(total: u32, step: u32)
    requires Fits(total, step)
    ensures var rs := Ranges(total, step);
      && (total == 0 <==> rs == [])
      && (total > 0 ==> rs[0].from == 1 && rs[|rs| - 1].to == total)
      && (forall i :: 0 <= i < |rs| ==> 1 <= rs[i].Length() <= step)
      && (forall i :: 0 <= i < |rs| - 1 ==> rs[i + 1].from == rs[i].to + 1)
      && (forall n: int :: 1 <= n <= total ==> InSome(rs, n))
      && (forall n: int, i, j ::
            0 <= i < |rs| && 0 <= j < |rs| && rs[i].Contains(n) && rs[j].Contains(n) ==> i == j)
  {
    RangesFromBounds(1, total, step);
    RangesFromContiguous(1, total, step);
    RangesFromAscending(1, total, step);
    RangesFromCover(1, total, step);
  }

  /** Sum of the lengths of a sequence of ranges. */
  function Covered(rs: seq<Range>): (n: int)
    ensures (forall i :: 0 <= i < |rs| ==> rs[i].from <= rs[i].to) ==> n >= 0
  {
    if |rs| == 0 then 0 else rs[0].Length() + Covered(rs[1..])
  }

  /** The ranges from `from` hold exactly the sequence numbers
      `from .. total`, counted with multiplicity. */
  lemma {:induction false} RangesFromCovered(from: u32, total: u32, step: u32)
    requires 1 <= from <= total + 1
    requires Fits(total, step)
    ensures Covered(RangesFrom(from, total, step)) == total - from + 1
    decreases U32 - from
  {
    if from <= total {
      var to := BatchEnd(from, total, step);
      RangesFromCovered(NextFrom(to), total, step);
      var rs := RangesFrom(from, total, step);
      assert rs[1..] == RangesFrom(NextFrom(to), total, step);
    }
  }

  /** The number of batches from `from` is the least `k` with
      `k * step >= total - from + 1`. */
  lemma {:induction false} RangesFromCount(from: u32, total: u32, step: u32)
    requires 1 <= from <= total + 1
    requires Fits(total, step)
    ensures var k := |RangesFrom(from, total, step)|;
      (k - 1) * step < total - from + 1 <= k * step
    decreases U32 - from
  {
    if from <= total {
      var to := BatchEnd(from, total, step);
      RangesFromCount(NextFrom(to), total, step);
      var k := |RangesFrom(NextFrom(to), total, step)|;
      assert |RangesFrom(from, total, step)| == k + 1;
      if to < total {
        CeilStep(k, step, total - to, total - from + 1);
      }
    }
  }

  /** Adding one full step to a quantity adds one to its ceiling. */
  lemma CeilStep(k: int, step: int, rest: int, all: int)
    requires step >= 1 && all == rest + step
    requires (k - 1) * step < rest <= k * step
    ensures k * step < all <= (k + 1) * step
  {
    MulSucc(k - 1, step);
    MulSucc(k, step);
  }

  /** `q` is the quotient of `x` by `d` when `x` lies in [q*d, (q+1)*d). */
  lemma DivUnique(x: int, d: int, q: int)
    requires 0 < d
    requires q * d <= x < (q + 1) * d
    ensures x / d == q
  {
    var q' := x / d;
    assert x == q' * d + x % d && 0 <= x % d < d;
    MulSucc(q', d);
    if q' < q {
      MulMono(q' + 1, q, d);
    } else if q' > q {
      MulMono(q + 1, q', d);
    }
  }

  lemma MulSucc(a: int, d: int)
    ensures (a + 1) * d == a * d + d
  {
  }

  lemma MulMono(a: int, b: int, d: int)
    requires a <= b && 0 < d
    ensures a * d <= b * d
  {
    assert b * d - a * d == (b - a) * d;
  }

  /** There are `ceil(total / step)` batches. */
  lemma RangesCount(total: u32, step: u32)
    requires Fits(total, step)
    ensures |Ranges(total, step)| == (total + step - 1) / step
  {
    RangesFromCount(1, total, step);
    var k := |Ranges(total, step)|;
    assert (k - 1) * step < total <= k * step;
    assert k * step == (k - 1) * step + step;
    DivUnique(total + step - 1, step, k);
  }

  /** A mailbox of 450 messages in batches of 200 is fetched as
      [1,200], [201,400], [401,450]. */
  lemma Example450()
    ensures Fits(450, Step(200))
    ensures Ranges(450, Step(200)) == [Range(1, 200), Range(201, 400), Range(401, 450)]
  {
    var step := Step(200);
    assert RangesFrom(451, 450, step) == [];
    assert RangesFrom(401, 450, step) == [Range(401, 450)];
    assert RangesFrom(201, 450, step) == [Range(201, 400), Range(401, 450)];
  }

  /** Why `Fits` is needed. With 2^32 - 1 messages and a step of 1, the
      batch ending at the last sequence number is followed by `from == 0`,
      which passes the loop guard again. With a step of 200, a batch that
      starts within 199 of 2^32 ends, after wrapping, below its own start,
      so the loop goes back. A zero step never advances. */
  lemma WrapAroundRestarts()
    ensures BatchEnd(U32 - 1, U32 - 1, Step(1)) == U32 - 1
    ensures NextFrom(U32 - 1) == 0
    ensures BatchEnd(U32 - 100, U32 - 1, Step(200)) == 99
    ensures NextFrom(99) == 100 < U32 - 100
    ensures BatchEnd(1, 450, Step(U32)) == 0 && NextFrom(0) == 1
  {
  }
}

=== FILE: resolver.dfy ===
/** The folder-name resolver: provider-specific special folders of the
    source account are renamed to their generic names on the destination;
    every other name passes through unchanged. */
module Resolver {

  /** The fixed table of special folders (source name to destination name). */
  const FolderMap: map<string, string> := map[
    "INBOX" := "INBOX",
    "[Gmail]/Sent Mail" := "Sent",
    "[Gmail]/Drafts" := "Drafts",
    "[Gmail]/Spam" := "Junk",
    "[Gmail]/Trash" := "Trash",
    "[Gmail]/All Mail" := "Archive"
  ]

  /** The destination name of the source mailbox `name`. */
  function Resolve(name: string): (r: string)
    ensures name !in FolderMap ==> r == name
    ensures name in FolderMap ==> r in FolderMap.Values
    ensures r != name ==> name in FolderMap && r != "INBOX"
  {
    if name in FolderMap then FolderMap[name] else name
  }

  /** Each of the six table keys resolves to its generic folder name. */
  lemma ResolveTable()
    ensures Resolve("INBOX") == "INBOX"
    ensures Resolve("[Gmail]/Sent Mail") == "Sent"
    ensures Resolve("[Gmail]/Drafts") == "Drafts"
    ensures Resolve("[Gmail]/Spam") == "Junk"
    ensures Resolve("[Gmail]/Trash") == "Trash"
    ensures Resolve("[Gmail]/All Mail") == "Archive"
    ensures Resolve("Custom/Project") == "Custom/Project"
  {
  }

  /** No destination name of the table is itself a key, except "INBOX",
      which maps to itself. */
  lemma TableValuesAreFixed(v: string)
    requires v in FolderMap.Values
    ensures v in FolderMap ==> v == "INBOX" && FolderMap[v] == v
  {
    var k :| k in FolderMap && FolderMap[k] == v;
    assert k in FolderMap.Keys;
    assert FolderMap.Keys == {"INBOX", "[Gmail]/Sent Mail", "[Gmail]/Drafts",
                              "[Gmail]/Spam", "[Gmail]/Trash", "[Gmail]/All Mail"};
  }

  /** Resolving twice is resolving once. */
  lemma ResolveIdempotent(name: string)
    ensures Resolve(Resolve(name)) == Resolve(name)
  {
    if name in FolderMap {
      TableValuesAreFixed(FolderMap[name]);
    }
  }

  /** Resolution is not injective: the Gmail sent folder and a plain
      "Sent" folder of the source land in the same destination mailbox. */
  lemma ResolveMergesSent()
    ensures "[Gmail]/Sent Mail" != "Sent"
    ensures Resolve("[Gmail]/Sent Mail") == Resolve("Sent")
  {
  }
}

=== FILE: session.dfy ===
/** The abstract IMAP sessions the engine talks to. Every server reply is a
    pure function of the calls issued so far in the current mailbox (the
    trace) and of the call itself, so any server behaviour, failures
    included, is some `Env`. The engine records each call it issues. */
module Session {
  import opened Wrappers
  import opened Pagination

  /** An opaque protocol or transport error. */
  datatype Error = Error(code: nat)

  /** The envelope fields the engine reads. */
  datatype Envelope = Envelope(messageId: string)

  /** A server-assigned internal date, passed through verbatim. */
  datatype Timestamp = Timestamp(nanos: int)

  /** The raw bytes of a full message, never inspected. */
  type Body = seq<bv8>

  /** One fetched message: its sequence number, envelope (absent when the
      server sent none), flags, internal date and body (absent when the body
      section could not be retrieved). */
  datatype Record = Record(
    seqNum: u32,
    envelope: Option<Envelope>,
    flags: seq<string>,
    internalDate: Timestamp,
    body: Option<Body>)

  /** What a fetch delivers: the records, in arrival order, and the single
      completion status observed after the stream is drained. */
  datatype FetchReply = FetchReply(records: seq<Record>, done: Outcome<Error>)

  /** A message to append to a destination mailbox. */
  datatype Outgoing = Outgoing(mailbox: string, flags: seq<string>, date: Timestamp, body: Body)

  /** A call issued on the source or on the destination session. */
  datatype Call =
    | SourceSelect(mailbox: string, readOnly: bool)
    | SourceFetch(batch: Range)
    | DestSelect(mailbox: string, readOnly: bool)
    | DestCreate(mailbox: string)
    | DestSearch(messageId: string)
    | DestAppend(message: Outgoing)
  {
    predicate OnDestination()
    {
      DestSelect? || DestCreate? || DestSearch? || DestAppend?
    }
  }

  /** The calls issued so far, oldest first. */
  type Trace = seq<Call>

  /** The servers' replies. `sourceSelect` gives the message count of a
      source mailbox, `destSearch` the sequence numbers of destination
      messages whose Message-ID header matches. */
  datatype Env = Env(
    sourceSelect: (Trace, string) -> Result<u32, Error>,
    sourceFetch: (Trace, Range) -> FetchReply,
    destSelect: (Trace, string, bool) -> Outcome<Error>,
    destCreate: (Trace, string) -> Outcome<Error>,
    destSearch: (Trace, string) -> Result<seq<u32>, Error>,
    destAppend: (Trace, Outgoing) -> Outcome<Error>)

  /** A reply value together with the trace after the call. */
  datatype Answer<T> = Answer(value: T, trace: Trace)

  /** `b` extends `a` by destination calls only. */
  ghost predicate DestinationSuffix(a: Trace, b: Trace)
  {
    a <= b && forall k :: |a| <= k < |b| ==> b[k].OnDestination()
  }

  /** The batches fetched from the source, in order. */
  function Fetched(trace: Trace): seq<Range>
  {
    if |trace| == 0 then []
    else Fetched(trace[..|trace| - 1]) +
         (match trace[|trace| - 1] case SourceFetch(b) => [b] case _ => [])
  }

  lemma {:induction false} FetchedConcat(a: Trace, b: Trace)
    ensures Fetched(a + b) == Fetched(a) + Fetched(b)
    decreases |b|
  {
    if |b| == 0 {
      assert a + b == a;
    } else {
      var n := |b| - 1;
      assert (a + b)[..|a + b| - 1] == a + b[..n];
      FetchedConcat(a, b[..n]);
    }
  }

  /** Destination calls leave the fetched batches unchanged. */
  lemma {:induction false} FetchedDestinationSuffix(a: Trace, b: Trace)
    requires DestinationSuffix(a, b)
    ensures Fetched(b) == Fetched(a)
    decreases |b|
  {
    if |b| > |a| {
      var n := |b| - 1;
      assert b[..n][..|a|] == a;
      FetchedDestinationSuffix(a, b[..n]);
    } else {
      assert b == a;
    }
  }

  /** The source delivers each sequence number of the requested batch at
      most once, and nothing outside it. */
  ghost predicate DistinctWithin(records: seq<Record>, b: Range)
  {
    && (forall i :: 0 <= i < |records| ==> b.from <= records[i].seqNum <= b.to)
    && (forall i, j :: 0 <= i < j < |records| ==> records[i].seqNum != records[j].seqNum)
  }

  /** Every fetch of a non-empty batch is well behaved. */
  ghost predicate FaithfulFetch(env: Env)
  {
    forall t: Trace, b: Range :: b.from <= b.to ==> DistinctWithin(env.sourceFetch(t, b).records, b)
  }

  function SeqNums(records: seq<Record>): set<int>
  {
    set i | 0 <= i < |records| :: records[i].seqNum
  }

  /** The integers `lo .. hi`. */
  function Interval(lo: int, hi: int): (s: set<int>)
    ensures forall n :: n in s <==> lo <= n <= hi
    ensures lo <= hi + 1 ==> |s| == hi - lo + 1
    decreases hi - lo
  {
    if lo > hi then {} else Interval(lo, hi - 1) + {hi}
  }

  lemma {:induction false} SubsetSize<T>(a: set<T>, b: set<T>)
    requires a <= b
    ensures |a| <= |b|
    decreases |a|
  {
    if a != {} {
      var x :| x in a;
      SubsetSize(a - {x}, b - {x});
    }
  }

  lemma {:induction false} SeqNumsSize(records: seq<Record>)
    requires forall i, j :: 0 <= i < j < |records| ==> records[i].seqNum != records[j].seqNum
    ensures |SeqNums(records)| == |records|
    decreases |records|
  {
    if |records| > 0 {
      var n := |records| - 1;
      var init := records[..n];
      SeqNumsSize(init);
      assert SeqNums(records) == SeqNums(init) + {records[n].seqNum};
      assert records[n].seqNum !in SeqNums(init);
    } else {
      assert SeqNums(records) == {};
    }
  }

  /** A batch delivers at most as many records as it has sequence numbers. */
  lemma DistinctWithinBound(records: seq<Record>, b: Range)
    requires b.from <= b.to
    requires DistinctWithin(records, b)
    ensures |records| <= b.Length()
  {
    SeqNumsSize(records);
    SubsetSize(SeqNums(records), Interval(b.from, b.to));
  }
}

=== FILE: sync.dfy ===
/** The mailbox synchronizer: select the source mailbox, stop if it is
    empty, ensure and select the destination mailbox, then copy the
    mailbox batch by batch until done or until the first error. */
module Sync {
  import opened Wrappers
  import opened Pagination
  import opened Session
  import opened Copier
  import Resolver

  /** Reference definition of the pagination phase: copy the batches in
      order, stopping at the first batch that fails. */
  function Paginate(env: Env, name: string, run: Run, batches: seq<Range>): (r: Run)
    requires run.failure.None?
    ensures run.moved <= r.moved && run.skipped <= r.skipped
    ensures run.trace <= r.trace
    decreases |batches|
  {
    if |batches| == 0 then run
    else
      var after := CopyBatchRun(env, name, run, batches[0]);
      if after.failure.Some? then after else Paginate(env, name, after, batches[1..])
  }

  /** One batch adds exactly its own range to the fetched batches. */
  lemma FetchedAfterBatch(env: Env, name: string, run: Run, b: Range)
    requires run.failure.None?
    ensures Fetched(CopyBatchRun(env, name, run, b).trace) == Fetched(run.trace) + [b]
  {
    var next := CopyBatchRun(env, name, run, b);
    FetchedDestinationSuffix(run.trace + [SourceFetch(b)], next.trace);
    FetchedConcat(run.trace, [SourceFetch(b)]);
    assert [SourceFetch(b)][..0] == [];
  }

  /** `after` extends `before` by a prefix of `batches`: all of them when
      nothing failed, and at least one when something did. */
  ghost predicate FetchedPrefix(before: seq<Range>, after: seq<Range>, batches: seq<Range>, failed: bool)
  {
    && before <= after
    && after[|before|..] <= batches
    && (!failed ==> after == before + batches)
    && (failed ==> |after| > |before|)
  }

  /** Batches are fetched in order: the batches fetched during pagination
      are a prefix of `batches`, all of them when nothing failed, and at
      least one when something failed (`PaginateStopsAtFailure` names the
      failing batch as the last one fetched). */
  lemma {:induction false} PaginateFetches(env: Env, name: string, run: Run, batches: seq<Range>)
    requires run.failure.None?
    ensures FetchedPrefix(Fetched(run.trace), Fetched(Paginate(env, name, run, batches).trace),
                          batches, Paginate(env, name, run, batches).failure.Some?)
    decreases |batches|
  {
    var before := Fetched(run.trace);
    if |batches| == 0 {
      assert before[|before|..] == [];
    } else {
      var b := batches[0];
      var next := CopyBatchRun(env, name, run, b);
      FetchedAfterBatch(env, name, run, b);
      if next.failure.None? {
        var r := Paginate(env, name, next, batches[1..]);
        PaginateFetches(env, name, next, batches[1..]);
        FetchedPrefixStep(before, b, Fetched(r.trace), batches, r.failure.Some?);
      } else {
        assert Fetched(next.trace)[|before|..] == [b];
      }
    }
  }

  lemma FetchedPrefixStep(before: seq<Range>, b: Range, after: seq<Range>, batches: seq<Range>, failed: bool)
    requires |batches| > 0 && batches[0] == b
    requires FetchedPrefix(before + [b], after, batches[1..], failed)
    ensures FetchedPrefix(before, after, batches, failed)
  {
    assert after[|before|..] == [b] + after[|before| + 1..];
    assert batches == [b] + batches[1..];
  }

  /** A failed batch abandons every later batch: pagination over
      `first + rest` is pagination over `first`, then over `rest` unless
      something in `first` failed. */
  lemma {:induction false} PaginateAbandons(env: Env, name: string, run: Run, first: seq<Range>, rest: seq<Range>)
    requires run.failure.None?
    ensures var r1 := Paginate(env, name, run, first);
      Paginate(env, name, run, first + rest) ==
        (if r1.failure.Some? then r1 else Paginate(env, name, r1, rest))
    decreases |first|
  {
    if |first| == 0 {
      assert first + rest == rest;
    } else {
      var all := first + rest;
      assert all[0] == first[0];
      assert all[1..] == first[1..] + rest;
      var next := CopyBatchRun(env, name, run, first[0]);
      if next.failure.None? {
        PaginateAbandons(env, name, next, first[1..], rest);
      }
    }
  }

  /** Batch `k` is the one that failed: every batch before it succeeded,
      and the outcome of the whole pagination is that batch's outcome. */
  ghost predicate FailedBatch(env: Env, name: string, run: Run, batches: seq<Range>, k: int)
    requires run.failure.None?
  {
    && 0 <= k < |batches|
    && Paginate(env, name, run, batches[..k]).failure.None?
    && Paginate(env, name, run, batches) ==
         CopyBatchRun(env, name, Paginate(env, name, run, batches[..k]), batches[k])
  }

  /** The failing batch of the rest is, one position later, the failing
      batch of the whole when the first batch succeeds. */
  lemma FailedBatchStep(env: Env, name: string, run: Run, batches: seq<Range>, j: int)
    requires run.failure.None? && |batches| > 0
    requires CopyBatchRun(env, name, run, batches[0]).failure.None?
    requires FailedBatch(env, name, CopyBatchRun(env, name, run, batches[0]), batches[1..], j)
    ensures FailedBatch(env, name, run, batches, j + 1)
  {
    var next := CopyBatchRun(env, name, run, batches[0]);
    var pre := batches[..j + 1];
    assert pre[0] == batches[0];
    assert pre[1..] == batches[1..][..j];
    assert batches[j + 1] == batches[1..][j];
  }

  /** A failed pagination has a failing batch. */
  lemma {:induction false} FailedBatchExists(env: Env, name: string, run: Run, batches: seq<Range>)
    requires run.failure.None?
    requires Paginate(env, name, run, batches).failure.Some?
    ensures exists k :: FailedBatch(env, name, run, batches, k)
    decreases |batches|
  {
    var next := CopyBatchRun(env, name, run, batches[0]);
    if next.failure.Some? {
      assert batches[..0] == [];
      assert FailedBatch(env, name, run, batches, 0);
    } else {
      FailedBatchExists(env, name, next, batches[1..]);
      var j :| FailedBatch(env, name, next, batches[1..], j);
      FailedBatchStep(env, name, run, batches, j);
    }
  }

  /** A pagination that did not fail fetched all of its batches. */
  lemma PaginateFetchesAll(env: Env, name: string, run: Run, batches: seq<Range>)
    requires run.failure.None?
    requires Paginate(env, name, run, batches).failure.None?
    ensures Fetched(Paginate(env, name, run, batches).trace) == Fetched(run.trace) + batches
  {
    PaginateFetches(env, name, run, batches);
  }

  /** The batches fetched end with the failing batch. */
  lemma FailedBatchFetched(env: Env, name: string, run: Run, batches: seq<Range>, k: int)
    requires run.failure.None?
    requires FailedBatch(env, name, run, batches, k)
    ensures Fetched(Paginate(env, name, run, batches).trace) == Fetched(run.trace) + batches[..k + 1]
  {
    var pre := batches[..k];
    var q := Paginate(env, name, run, pre);
    PaginateFetchesAll(env, name, run, pre);
    FetchedAfterBatch(env, name, q, batches[k]);
    PrefixSnoc(Fetched(run.trace), batches, k);
  }

  lemma PrefixSnoc<T>(a: seq<T>, s: seq<T>, k: int)
    requires 0 <= k < |s|
    ensures a + s[..k + 1] == (a + s[..k]) + [s[k]]
  {
    assert s[..k + 1] == s[..k] + [s[k]];
  }

  /** A failed pagination stops at its failing batch `k`: the batches
      before it all succeeded, the outcome is that batch's outcome, and the
      batches fetched end with batch `k`, so no later batch is fetched. */
  lemma PaginateStopsAtFailure(env: Env, name: string, run: Run, batches: seq<Range>)
    requires run.failure.None?
    requires Paginate(env, name, run, batches).failure.Some?
    ensures exists k :: (FailedBatch(env, name, run, batches, k) &&
      Fetched(Paginate(env, name, run, batches).trace) == Fetched(run.trace) + batches[..k + 1])
  {
    FailedBatchExists(env, name, run, batches);
    var k :| FailedBatch(env, name, run, batches, k);
    FailedBatchFetched(env, name, run, batches, k);
  }

  /** When the source never delivers a sequence number twice or outside
      the batch, the counters grow by at most the size of the batches. */
  lemma {:induction false} PaginateBounded(env: Env, name: string, run: Run, batches: seq<Range>)
    requires run.failure.None?
    requires FaithfulFetch(env)
    requires forall i :: 0 <= i < |batches| ==> batches[i].from <= batches[i].to
    ensures Paginate(env, name, run, batches).Handled() <= run.Handled() + Covered(batches)
    decreases |batches|
  {
    if |batches| > 0 {
      var b := batches[0];
      var reply := env.sourceFetch(run.trace, b);
      DistinctWithinBound(reply.records, b);
      var after := CopyBatchRun(env, name, run, b);
      if after.failure.None? {
        PaginateBounded(env, name, after, batches[1..]);
      }
    }
  }

  /** Every delivered record with a body carries a Message-ID that the
      destination search finds, whatever was issued before. */
  ghost predicate Known(env: Env, rec: Record)
  {
    rec.body.Some? ==>
      MessageId(rec) != "" && forall t: Trace :: Found(env.destSearch(t, MessageId(rec)))
  }

  /** The destination already holds every message of the source. */
  ghost predicate AllKnown(env: Env)
  {
    forall t: Trace, b: Range, i ::
      0 <= i < |env.sourceFetch(t, b).records| ==> Known(env, env.sourceFetch(t, b).records[i])
  }

  /** The number of messages with a body that the source delivered over
      the fetches recorded in `trace`; each fetch is answered as it was
      when it was issued. */
  function Delivered(env: Env, trace: Trace): nat
  {
    if |trace| == 0 then 0
    else
      var n := |trace| - 1;
      Delivered(env, trace[..n]) +
        (match trace[n] case SourceFetch(b) => WithBody(env.sourceFetch(trace[..n], b).records) case _ => 0)
  }

  /** Destination calls deliver nothing. */
  lemma {:induction false} DeliveredDestinationSuffix(env: Env, a: Trace, b: Trace)
    requires DestinationSuffix(a, b)
    ensures Delivered(env, b) == Delivered(env, a)
    decreases |b|
  {
    if |b| > |a| {
      var n := |b| - 1;
      assert b[..n][..|a|] == a;
      DeliveredDestinationSuffix(env, a, b[..n]);
    } else {
      assert b == a;
    }
  }

  /** No append follows `a` in `b`. */
  ghost predicate NoAppend(a: Trace, b: Trace)
  {
    a <= b && forall k :: |a| <= k < |b| ==> !b[k].DestAppend?
  }

  /** One batch against a destination that holds every message: the fetch,
      then searches only; every delivered message with a body is skipped. */
  lemma BatchAllKnown(env: Env, name: string, run: Run, b: Range)
    requires run.failure.None?
    requires AllKnown(env)
    ensures var after := CopyBatchRun(env, name, run, b);
      && after.moved == run.moved
      && after.skipped + Delivered(env, run.trace) == run.skipped + Delivered(env, after.trace)
      && NoAppend(run.trace, after.trace)
  {
    var reply := env.sourceFetch(run.trace, b);
    var t := run.trace + [SourceFetch(b)];
    var start := run.(trace := t);
    assert forall i :: 0 <= i < |reply.records| ==> Known(env, reply.records[i]);
    AllKnownAllSkipped(env, Resolver.Resolve(name), start, reply.records);
    var drained := CopyRecords(env, Resolver.Resolve(name), start, reply.records);
    assert t[..|run.trace|] == run.trace;
    assert Delivered(env, t) == Delivered(env, run.trace) + WithBody(reply.records);
    assert DestinationSuffix(t, drained.trace);
    DeliveredDestinationSuffix(env, t, drained.trace);
  }

  /** Pagination against a destination that holds every message moves
      nothing, issues no append, and skips every delivered message that
      has a body. */
  lemma {:induction false} PaginateAllKnown(env: Env, name: string, run: Run, batches: seq<Range>)
    requires run.failure.None?
    requires AllKnown(env)
    ensures var r := Paginate(env, name, run, batches);
      && r.moved == run.moved
      && r.skipped + Delivered(env, run.trace) == run.skipped + Delivered(env, r.trace)
      && NoAppend(run.trace, r.trace)
    decreases |batches|
  {
    if |batches| > 0 {
      var after := CopyBatchRun(env, name, run, batches[0]);
      BatchAllKnown(env, name, run, batches[0]);
      if after.failure.None? {
        PaginateAllKnown(env, name, after, batches[1..]);
      }
    }
  }

  /** What the engine demands of its caller: once a non-empty source
      mailbox has been selected, the pagination loop must not wrap around
      32 bits. */
  predicate SyncPre(env: Env, name: string, batchSize: int)
  {
    var selected := env.sourceSelect([], name);
    selected.Ok? && selected.value > 0 ==> Fits(selected.value, Step(batchSize))
  }

  /** Reference definition of synchronizing one mailbox. */
  function SyncRun(env: Env, name: string, batchSize: int): (r: Run)
    requires SyncPre(env, name, batchSize)
    ensures |r.trace| > 0 && r.trace[0] == SourceSelect(name, true)
  {
    var dstName := Resolver.Resolve(name);
    var t0 := [SourceSelect(name, true)];
    match env.sourceSelect([], name)
    case Err(e) => Run(t0, 0, 0, Some(e))
    case Ok(count) =>
      if count == 0 then Run(t0, 0, 0, None)
      else
        var ensured := EnsureMailbox(env, t0, dstName);
        if ensured.value.Fail? then Run(ensured.trace, 0, 0, Some(ensured.value.error))
        else
          var t1 := ensured.trace + [DestSelect(dstName, false)];
          match env.destSelect(ensured.trace, dstName, false)
          case Fail(e) => Run(t1, 0, 0, Some(e))
          case Pass => Paginate(env, name, Run(t1, 0, 0, None), Ranges(count, Step(batchSize)))
  }

  /** A failed source select or an empty mailbox ends the run with zero
      counters and leaves the destination untouched: the only call issued
      is the source select. */
  lemma SyncEarlyExit(env: Env, name: string, batchSize: int)
    requires SyncPre(env, name, batchSize)
    ensures var selected := env.sourceSelect([], name);
      && (selected.Err? ==>
            SyncRun(env, name, batchSize) == Run([SourceSelect(name, true)], 0, 0, Some(selected.error)))
      && (selected == Ok(0) ==>
            SyncRun(env, name, batchSize) == Run([SourceSelect(name, true)], 0, 0, None))
  {
  }

  /** The trace on entering the pagination phase of a non-empty mailbox,
      and the fact that it holds no fetch yet. */
  function Prepared(env: Env, name: string): (t: Trace)
    ensures Fetched(t) == []
  {
    var t0 := [SourceSelect(name, true)];
    var ensured := EnsureMailbox(env, t0, Resolver.Resolve(name));
    var t1 := ensured.trace + [DestSelect(Resolver.Resolve(name), false)];
    assert DestinationSuffix(t0, t1);
    FetchedDestinationSuffix(t0, t1);
    assert t0[..0] == [];
    t1
  }

  /** For a non-empty mailbox, the batches fetched are a prefix of the
      pagination of [1, total], all of it when nothing failed. */
  lemma SyncFetches(env: Env, name: string, batchSize: int)
    requires SyncPre(env, name, batchSize)
    requires env.sourceSelect([], name).Ok? && env.sourceSelect([], name).value > 0
    ensures var rs := Ranges(env.sourceSelect([], name).value, Step(batchSize));
      && Fetched(SyncRun(env, name, batchSize).trace) <= rs
      && (SyncRun(env, name, batchSize).failure.None? ==> Fetched(SyncRun(env, name, batchSize).trace) == rs)
  {
    var rs := Ranges(env.sourceSelect([], name).value, Step(batchSize));
    var dstName := Resolver.Resolve(name);
    var t0 := [SourceSelect(name, true)];
    var ensured := EnsureMailbox(env, t0, dstName);
    var t1 := Prepared(env, name);
    if ensured.value.Fail? {
      FetchedDestinationSuffix(t0, ensured.trace);
      assert t0[..0] == [];
    } else if env.destSelect(ensured.trace, dstName, false).Pass? {
      PaginateFetches(env, name, Run(t1, 0, 0, None), rs);
    }
  }

  /** A failed run either failed before any batch was fetched, with zero
      counters, or failed at batch `k` of the pagination of [1, total]:
      the batches before it succeeded, the run's outcome is that batch's
      outcome, and no later batch was fetched. */
  lemma SyncStopsAtFailure(env: Env, name: string, batchSize: int)
    requires SyncPre(env, name, batchSize)
    requires env.sourceSelect([], name).Ok? && env.sourceSelect([], name).value > 0
    requires SyncRun(env, name, batchSize).failure.Some?
    ensures Fetched(SyncRun(env, name, batchSize).trace) == [] ==>
              SyncRun(env, name, batchSize).Handled() == 0
    ensures Fetched(SyncRun(env, name, batchSize).trace) != [] ==>
      exists k :: (FailedBatch(env, name, Run(Prepared(env, name), 0, 0, None),
                               Ranges(env.sourceSelect([], name).value, Step(batchSize)), k) &&
                   SyncRun(env, name, batchSize) ==
                     Paginate(env, name, Run(Prepared(env, name), 0, 0, None),
                              Ranges(env.sourceSelect([], name).value, Step(batchSize))) &&
                   Fetched(SyncRun(env, name, batchSize).trace) ==
                     Ranges(env.sourceSelect([], name).value, Step(batchSize))[..k + 1])
  {
    var rs := Ranges(env.sourceSelect([], name).value, Step(batchSize));
    var dstName := Resolver.Resolve(name);
    var t0 := [SourceSelect(name, true)];
    var ensured := EnsureMailbox(env, t0, dstName);
    var t1 := Prepared(env, name);
    if ensured.value.Fail? {
      FetchedDestinationSuffix(t0, ensured.trace);
      assert t0[..0] == [];
    } else if env.destSelect(ensured.trace, dstName, false).Pass? {
      PaginateStopsAtFailure(env, name, Run(t1, 0, 0, None), rs);
    }
  }

  /** With a well-behaved source, moved plus skipped never exceeds the
      mailbox's message count. */
  lemma SyncBounded(env: Env, name: string, batchSize: int)
    requires SyncPre(env, name, batchSize)
    requires FaithfulFetch(env)
    requires env.sourceSelect([], name).Ok?
    ensures SyncRun(env, name, batchSize).Handled() <= env.sourceSelect([], name).value
  {
    var count := env.sourceSelect([], name).value;
    if count > 0 {
      var step := Step(batchSize);
      RangesFromBounds(1, count, step);
      RangesFromCovered(1, count, step);
      PaginateBounded(env, name, Run(Prepared(env, name), 0, 0, None), Ranges(count, step));
    }
  }

  /** The calls before pagination (the source select, the ensure step and
      the read-write select) deliver nothing and append nothing. */
  lemma SetupDeliversNothing(env: Env, name: string)
    ensures var t0 := [SourceSelect(name, true)];
      var ensured := EnsureMailbox(env, t0, Resolver.Resolve(name));
      && NoAppend([], t0) && Delivered(env, t0) == 0
      && NoAppend([], ensured.trace) && Delivered(env, ensured.trace) == 0
      && NoAppend([], Prepared(env, name)) && Delivered(env, Prepared(env, name)) == 0
  {
    var t0 := [SourceSelect(name, true)];
    var ensured := EnsureMailbox(env, t0, Resolver.Resolve(name));
    var t1 := Prepared(env, name);
    assert t0[..0] == [];
    assert DestinationSuffix(t0, t1);
    DeliveredDestinationSuffix(env, t0, ensured.trace);
    DeliveredDestinationSuffix(env, t0, t1);
  }

  /** Idempotence across runs: when the destination already holds every
      source message under its Message-ID and the search is reliable, a
      run moves nothing, never appends, and counts every delivered message
      with a body as skipped. */
  lemma SecondRunMovesNothing(env: Env, name: string, batchSize: int)
    requires SyncPre(env, name, batchSize)
    requires AllKnown(env)
    ensures SyncRun(env, name, batchSize).moved == 0
    ensures SyncRun(env, name, batchSize).skipped == Delivered(env, SyncRun(env, name, batchSize).trace)
    ensures NoAppend([], SyncRun(env, name, batchSize).trace)
  {
    SetupDeliversNothing(env, name);
    var selected := env.sourceSelect([], name);
    if selected.Ok? && selected.value > 0 {
      var dstName := Resolver.Resolve(name);
      var ensured := EnsureMailbox(env, [SourceSelect(name, true)], dstName);
      if ensured.value.Pass? && env.destSelect(ensured.trace, dstName, false).Pass? {
        var t1 := Prepared(env, name);
        var r := Paginate(env, name, Run(t1, 0, 0, None), Ranges(selected.value, Step(batchSize)));
        PaginateAllKnown(env, name, Run(t1, 0, 0, None), Ranges(selected.value, Step(batchSize)));
        assert SyncRun(env, name, batchSize) == r;
      }
    }
  }

  /** The engine's per-mailbox synchronization: the destination name is
      resolved, the source mailbox selected read-only, an empty mailbox
      ends at once, the destination mailbox is ensured and selected
      read-write, and the batches [from, to] are walked with 32-bit
      arithmetic, returning the partial counters on the first error. */
  method SyncMailbox(env: Env, name: string, batchSize: int) returns (r: Run)
    requires SyncPre(env, name, batchSize)
    ensures r == SyncRun(env, name, batchSize)
    ensures env.sourceSelect([], name) == Ok(0) ==> r == Run([SourceSelect(name, true)], 0, 0, None)
    ensures FaithfulFetch(env) && env.sourceSelect([], name).Ok? ==>
              r.Handled() <= env.sourceSelect([], name).value
    ensures env.sourceSelect([], name).Ok? && env.sourceSelect([], name).value > 0 ==>
              Fetched(r.trace) <= Ranges(env.sourceSelect([], name).value, Step(batchSize))
  {
    SyncEarlyExit(env, name, batchSize);
    if FaithfulFetch(env) && env.sourceSelect([], name).Ok? {
      SyncBounded(env, name, batchSize);
    }
    if env.sourceSelect([], name).Ok? && env.sourceSelect([], name).value > 0 {
      SyncFetches(env, name, batchSize);
    }
    var dstName := Resolver.Resolve(name);
    var t := [SourceSelect(name, true)];
    var selected := env.sourceSelect([], name);
    if selected.Err? {
      return Run(t, 0, 0, Some(selected.error));
    }
    var count := selected.value;
    if count == 0 {
      return Run(t, 0, 0, None);
    }
    var ensured := EnsureMailbox(env, t, dstName);
    if ensured.value.Fail? {
      return Run(ensured.trace, 0, 0, Some(ensured.value.error));
    }
    var status := env.destSelect(ensured.trace, dstName, false);
    t := ensured.trace + [DestSelect(dstName, false)];
    if status.Fail? {
      return Run(t, 0, 0, Some(status.error));
    }
    r := PaginateLoop(env, name, Run(t, 0, 0, None), count, Step(batchSize));
  }

  /** One turn of the pagination loop: the first batch runs, and the rest
      follows from the next start unless that batch failed. */
  lemma PaginateStep(env: Env, name: string, run: Run, from: u32, count: u32, step: u32)
    requires run.failure.None?
    requires 1 <= from <= count
    requires Fits(count, step)
    ensures CopyBatchRun(env, name, run, Range(from, BatchEnd(from, count, step))).failure.Some? ==>
      Paginate(env, name, run, RangesFrom(from, count, step)) ==
      CopyBatchRun(env, name, run, Range(from, BatchEnd(from, count, step)))
    ensures CopyBatchRun(env, name, run, Range(from, BatchEnd(from, count, step))).failure.None? ==>
      Paginate(env, name, run, RangesFrom(from, count, step)) ==
      Paginate(env, name, CopyBatchRun(env, name, run, Range(from, BatchEnd(from, count, step))),
               RangesFrom(NextFrom(BatchEnd(from, count, step)), count, step))
    ensures NextFrom(BatchEnd(from, count, step)) == BatchEnd(from, count, step) + 1 <= count + 1
  {
    RangesFromUnfold(from, count, step);
    var to := BatchEnd(from, count, step);
    var rs := RangesFrom(from, count, step);
    assert rs[0] == Range(from, to);
    assert rs[1..] == RangesFrom(NextFrom(to), count, step);
  }

  /** The pagination loop of the engine over `uint32` sequence numbers:
      `to := from + step - 1`, clipped to the message count, then
      `from := to + 1`, returning the counters as they stand on the first
      error. */
  method PaginateLoop(env: Env, name: string, start: Run, count: u32, step: u32) returns (r: Run)
    requires start.failure.None?
    requires Fits(count, step)
    ensures r == Paginate(env, name, start, Ranges(count, step))
  {
    r := start;
    var from: u32 := 1;
    while from <= count
      invariant 1 <= from <= count + 1
      invariant r.failure.None?
      invariant Paginate(env, name, r, RangesFrom(from, count, step)) ==
                Paginate(env, name, start, Ranges(count, step))
      decreases count + 1 - from
    {
      var to := Wrap(from + step - 1);
      if to > count {
        to := count;
      }
      assert to == BatchEnd(from, count, step);
      PaginateStep(env, name, r, from, count, step);
      r := CopyBatch(env, name, r, from, to);
      if r.failure.Some? {
        return;
      }
      from := NextFrom(to);
    }
  }
}

=== FILE: wrappers.dfy ===
/** Failure-carrying datatypes shared by the model: Go's `(value, error)`
    pairs become `Result`, a bare `error` return becomes `Outcome`. */
module Wrappers {

  /** An optional value; `None` plays the role of Go's `nil`. */
  datatype Option<+T> = None | Some(value: T)

  /** A value or an error, as returned by a Go call with two results. */
  datatype Result<+T, +E> = Ok(value: T) | Err(error: E)

  /** A Go `error` result: `Pass` is `nil`, `Fail` carries the error. */
  datatype Outcome<+E> = Pass | Fail(error: E)
}
